=== FILE: README.md ===
# A verified model of the `NN` MNIST classifier

This project models, in Dafny, the classifier in `assignements/1/problem_1.py`:

- the class `NN`, a feed-forward network with two sigmoid hidden layers and
  a softmax output. Its weights are a list `W` of matrices and it has no
  biases;
- its weight initialisation, forward pass, backward pass and weight update;
- its train/eval mode flag;
- the one-hot encoding of the targets in `preprocess`;
- how these calls compose in one iteration of the training and validation
  loops.

Matrices are exact reals (`Matrices.Matrix`). Each matrix records its shape
the way a NumPy array does, so shapes can be stated and checked. The
exponential is not computed. Every function that needs it takes it as a
parameter `exp`, and all the model knows is that `exp` is positive
everywhere. Lemmas that need more, such as `exp(a - b) == exp(a)·exp(-b)` or
`exp(0) == 1`, take that fact as a `requires` on the points they use.

Every Python exception the modelled inputs can raise is a value of
`Errors.Error`, returned in a `Result`. The shape errors that `backward` and
`update_weights` raise on operands of mismatched shape are instead excluded
by a `requires`, as "## Left out" records. The modelled exceptions are:

- the `KeyError` of an unknown init method;
- the `ValueError` of `np.dot` on an input of the wrong height;
- the `IndexError` of `W[1]`/`W[2]` on a network with fewer than two hidden
  layers;
- the `ValueError` of `np.max` on an empty output;
- the exception `update_weights` raises in eval mode;
- the `IndexError` of a missing gradient;
- the `IndexError` of a label outside `[-n_class, n_class)`.

`update_weights` returns an `Outcome` (`Done` or `Raised`) together with the
model as it stands after the call. `Raised` always leaves the model
unchanged.

Modules:

- `Matrices`: shapes, `np.dot`, `.T`, elementwise operations, column sums,
  `np.max`, and the algebra the proofs need.
- `Activations`: `_sigmoid`, `_sigmoid_deriv` and `_softmax`.
- `Errors`: the exceptions and `Result`.
- `Network`: `NN`, its methods, and the quantity inside `loss`.
- `Preprocess`: the one-hot target.
- `Iteration`: one iteration of the training loop and of the validation
  loop of `main`, built from the pieces above.

Two behaviours of the code worth knowing:

- `_softmax` subtracts the single largest entry of the whole matrix
  (`np.max(X)`), not a per-column maximum. `Activations.Softmax` does
  exactly that. `Activations.SoftmaxShiftIrrelevant` shows that in exact
  arithmetic any per-column shift gives the same result.
- `forward` and `backward` always use exactly `W[0]`, `W[1]` and `W[2]`,
  whatever the number of hidden layers `NN` was built with. With fewer than
  two hidden layers `forward` fails. With more than two, given a target of
  the prediction's shape, `forward` and `backward` succeed on the first
  three layers, but `update_weights` then asks for a fourth gradient that
  `backward` never produced (`Iteration.DeeperNetworkCannotUpdate`). In the
  training loop the target has `n_class = 10` rows and the prediction
  `hidden[2]` rows, so this happens only when `hidden[2]` is 10; otherwise
  the loop fails before `update_weights`. When `hidden[2]` is 0, `forward`
  raises at `np.max` (line 71). For any other size `backward` raises a
  `ValueError`: at `target - prediction` (line 79), or, when `hidden[2]` is 1
  and that subtraction broadcasts, at `np.dot(self.W[2], grad_f)` (line 83).

## Model

| member | source | states |
|---|---|---|
| `Activations.Sigmoid` | assignements/1/problem_1.py:63-64 | the logistic function of any input lies strictly between 0 and 1 |
| `Activations.SigmoidDeriv` | assignements/1/problem_1.py:66-67 | the derivative `σ(x)(1−σ(x))` is positive and at most 1/4 |
| `Activations.SigmoidAtZero` | assignements/1/problem_1.py:63-67 | with `exp(0) = 1`, σ(0) = 1/2 and the derivative there reaches its maximum 1/4 |
| `Activations.SigmoidSymmetric` | assignements/1/problem_1.py:63-67 | σ(x) + σ(−x) = 1, and the derivative equals σ(x)·σ(−x) |
| `Activations.SigmoidM` | assignements/1/problem_1.py:63-64 | entrywise sigmoid keeps the shape, and every entry lies in (0, 1) |
| `Activations.SigmoidDerivM` | assignements/1/problem_1.py:66-67 | entrywise derivative keeps the shape, and every entry lies in (0, 1/4] |
| `Matrices.MaxEntry` | assignements/1/problem_1.py:71 | `np.max` of a non-empty matrix bounds every entry and is one of them |
| `Activations.Normalize` | assignements/1/problem_1.py:72 | dividing a positive matrix by its column sums makes every column a probability distribution with positive entries |
| `Activations.Softmax` | assignements/1/problem_1.py:69-72 | for a non-empty matrix the result has the same shape, every entry is in (0, 1], and every column sums to exactly 1 |
| `Activations.SoftmaxShiftIrrelevant` | assignements/1/problem_1.py:71-72 | subtracting any constant from each column before exponentiating leaves the normalised result unchanged |
| `Activations.SoftmaxIsNormalizedExp` | assignements/1/problem_1.py:69-72 | subtracting the global maximum, as the code does, gives exactly `exp(X)` normalised by its column sums |
| `Matrices.Transpose` | assignements/1/problem_1.py:94 | `.T` swaps the shape and moves entry `(i, j)` to `(j, i)` |
| `Matrices.TransposeTwice` | assignements/1/problem_1.py:94 | transposing twice gives back the original matrix |
| `Matrices.MatMul` | assignements/1/problem_1.py:44 | `np.dot` of an `(r, k)` and a `(k, c)` matrix has shape `(r, c)`, and entry `(i, j)` is the inner product of row `i` of the first with column `j` of the second |
| `Matrices.MatMulTranspose` | assignements/1/problem_1.py:81-94 | `(a·b)ᵀ = bᵀ·aᵀ` |
| `Matrices.Sub` | assignements/1/problem_1.py:79 | `a - b` of two equally shaped matrices keeps the shape and subtracts entry by entry |
| `Matrices.Hadamard` | assignements/1/problem_1.py:84 | `np.multiply(a, b)` of two equally shaped matrices keeps the shape and multiplies entry by entry |
| `Network.RandomMatrix` | assignements/1/problem_1.py:31-32 | `_random(n_in, n_out)` has shape `(n_in, n_out)`; the drawn values are a parameter |
| `Network.InitWeights` | assignements/1/problem_1.py:30-40 | succeeds exactly when the method is `'random'` and otherwise raises the lookup error; on success it makes one matrix per consecutive pair of sizes, of shape `(sizes[i], sizes[i+1])` |
| `Network.Init` | assignements/1/problem_1.py:15-40 | a constructed model is consistent, starts in eval mode, keeps its sizes and learning rate, and holds `len(hidden)+1` weight matrices; an unknown init method raises |
| `Network.LayersChain` | assignements/1/problem_1.py:39-40 | consecutive weight matrices chain: the columns of `W[l]` equal the rows of `W[l+1]`, from `input_size` to `output_size` |
| `Network.DefaultShapes` | assignements/1/problem_1.py:15-40 | the default model has three weights of shapes (784, 1024), (1024, 2048) and (2048, 10) |
| `Network.ThreeLayers` | assignements/1/problem_1.py:44-48 | with at least two hidden layers, the three matrices `forward` reads exist, with their layer shapes |
| `Network.Forward` | assignements/1/problem_1.py:42-61 | succeeds exactly when `X` has `input_size` rows and at least one column, there are at least two hidden layers, and the third layer is non-empty; otherwise it raises the first error the code would hit. On success the seven cached arrays have their layer shapes, `h0` is `X`, each layer computes `a = W[l]ᵀ·h`, then `h = σ(a)` for the hidden layers and `h3 = softmax(a3)` at the output, and the prediction is `h3`, column-stochastic |
| `Network.ForwardShapes` | assignements/1/problem_1.py:42-61 | the default three-layer network maps `(input_size, B)` to an `(output_size, B)` prediction with entries in (0, 1] whose columns sum to 1, and hidden activations of shapes `(hidden[k], B)` |
| `Network.Likelihoods` | assignements/1/problem_1.py:76 | `(prediction * target).sum(axis=0)` has one entry per example: the inner product of its prediction and target columns |
| `Network.Likelihood` | assignements/1/problem_1.py:76 | one column of `(prediction * target).sum(axis=0)` is the inner product of the two columns |
| `Network.ErrorSignals` | assignements/1/problem_1.py:79-89 | the output error is `prediction − target` entry by entry; the hidden errors have the hidden layers' shapes and are the next layer's error carried back through its weights |
| `Network.BackSignal` | assignements/1/problem_1.py:83-84 | carrying an error back through a layer gives, per entry, the weight row's inner product with the error column times the sigmoid derivative at the pre-activation |
| `Network.Backward` | assignements/1/problem_1.py:78-94 | returns exactly three gradients, each of its weight's shape, gradient `l` being `h_l · d_{l+1}ᵀ` |
| `Matrices.TransposedOuter` | assignements/1/problem_1.py:91-94 | transposing `np.dot(d, h.T)` gives `np.dot(h, d.T)` |
| `Network.GradientIsBatchSum` | assignements/1/problem_1.py:81-94 | a gradient entry `(r, c)` is the sum over the batch of input activation `r` times error `c` |
| `Network.OutputSignalBalanced` | assignements/1/problem_1.py:79 | when prediction and target are column distributions, each column of the output error sums to 0 |
| `Network.BackSignalOfZero` | assignements/1/problem_1.py:83-89 | a zero error stays zero when carried back through a layer |
| `Network.GradientOfZeroSignal` | assignements/1/problem_1.py:81-91 | a zero error yields a zero weight gradient |
| `Network.PerfectPredictionNoGradient` | assignements/1/problem_1.py:78-94 | a prediction equal to its target yields three all-zero gradients |
| `Network.UpdateWeights` | assignements/1/problem_1.py:96-99 | in eval mode it raises and leaves the model as it was, whatever the gradients; in training mode it raises the index error, leaving the model unchanged, when gradients are missing, and otherwise completes, keeping sizes, mode, learning rate and every weight's shape |
| `Network.UpdateDescends` | assignements/1/problem_1.py:99 | a completed update sets each weight entry to `W[l][i][j] − lr·grads[l][i][j]` |
| `Network.Training` | assignements/1/problem_1.py:101-102 | sets training mode and changes nothing else |
| `Network.Eval` | assignements/1/problem_1.py:104-105 | sets eval mode and changes nothing else |
| `Network.ModeSwitches` | assignements/1/problem_1.py:101-105 | each mode switch is idempotent, and a later switch overrides an earlier one |
| `Network.EvalBlocksUpdate` | assignements/1/problem_1.py:96-98 | after `eval()`, an update with any gradients, of any shape or number, raises and leaves the model unchanged |
| `Network.ZeroStepKeepsWeights` | assignements/1/problem_1.py:99 | with a zero learning rate or all-zero gradients, a training-mode update completes and changes nothing |
| `Preprocess.RowIndex` | assignements/1/problem_1.py:132 | the row a label selects is the label modulo `n_class`, so negative labels count from the end |
| `Preprocess.OneHot` | assignements/1/problem_1.py:131-132 | succeeds exactly when every label is in `[-n_class, n_class)`, otherwise raises; the target has shape `(n_class, B)` with a 1 in the selected row of each column and 0 elsewhere |
| `Preprocess.OneHotIsStochastic` | assignements/1/problem_1.py:131-132 | every column of a one-hot target sums to 1 and has no negative entry |
| `Preprocess.FirstOne` | assignements/1/problem_1.py:132 | the reference decoder: the position of the first 1 in a column, every earlier entry being different from 1 |
| `Preprocess.DecodeOneHot` | assignements/1/problem_1.py:131-132 | reading back each column's one gives the row each label selected |
| `Preprocess.OneHotRoundTrip` | assignements/1/problem_1.py:131-132 | for labels in `[0, n_class)`, decoding the one-hot target returns exactly the labels |
| `Iteration.TrueClassLikelihood` | assignements/1/problem_1.py:76 | against a one-hot target, the quantity inside the logarithm of `loss` is the predicted probability of each example's true class |
| `Iteration.LikelihoodsInUnitInterval` | assignements/1/problem_1.py:69-76 | for a prediction with entries in (0, 1], as `forward` produces, and a one-hot target, every such probability is in (0, 1]; it follows that the logarithm is defined and the loss is non-negative |
| `Iteration.TrainingIteration` | assignements/1/problem_1.py:140-145 | in training mode, for a network with two hidden layers and ten outputs (the rows of the target `preprocess` builds with its default `n_class = 10`), a batch of `input_size` rows and labels in `[-10, 10)`, `preprocess`, `forward`, `backward` and `update_weights` all succeed, and the updated model keeps its sizes, learning rate and mode |
| `Iteration.ValidationIteration` | assignements/1/problem_1.py:151-155 | in eval mode, for a network with two hidden layers and ten outputs and labels in `[-10, 10)`, `preprocess` (with its default `n_class = 10`) and `forward` succeed, and an update attempted with the resulting gradients would raise without changing the model |
| `Iteration.PerfectPredictionKeepsWeights` | assignements/1/problem_1.py:78-99 | a training step whose prediction equals its target leaves every weight unchanged |
| `Iteration.DeeperNetworkCannotUpdate` | assignements/1/problem_1.py:78-99 | with more than two hidden layers, updating with `backward`'s three gradients raises the missing-gradient error |

## Left out

- `load_dataset` (MNIST download, `DataLoader` batching and shuffling): I/O and foreign library calls.
- `main` and the `__main__` block: the epoch loops, running loss totals and `print`. Only one iteration of each loop is modelled (`Iteration`).
- The flattening of the images in `preprocess` (a torch-to-NumPy reshape): the model takes the flattened `(input_size, B)` matrix directly.
- The values drawn by `np.random.normal(0, 0.01, …)`: they are a parameter `draw` of `Network.RandomMatrix`, and only the shapes are stated.
- Floating-point behaviour: rounding, overflow and NaN/inf in `exp` and `log`, and the numerical-stability purpose of the max shift in `_softmax`. Reals are exact, and `exp` is known only to be positive.
- The `np.log(...).mean()` of `loss`: logarithm and mean are not modelled. `Network.Likelihoods` models the quantity they are applied to.
- The bias gradients `grad_b1`, `grad_b2`, `grad_b3`: they are computed and discarded, and there are no biases.
- NumPy broadcasting: the model only covers operands of matching shape.
- Network.Backward: requires the target, the prediction and the cache to have the shapes `forward` produces for the model's layers. The source would broadcast or raise a `ValueError` on other shapes. It also requires at least two hidden layers: on a shallower network the source raises an `IndexError` at `self.W[2]` (line 83), a case reachable only with a hand-made cache, because `forward` fails first.
- Network.UpdateWeights: in training mode, requires each given gradient to have its weight's shape. The source would broadcast `W[i] - lr * grads[i]` or raise on other shapes. A missing gradient is modelled, and in eval mode gradients of any shape are accepted, since the source raises before reading them.
- Network.Forward: requires a consistent model (as `Network.Init` builds) and a two-dimensional input. A one-dimensional `X` is not modelled.
- Network.ForwardShapes: states the prediction shape only for exactly two hidden layers. With more, `forward` still succeeds and yields a `(hidden[2], B)` output, as `Network.Forward` states.
- Iteration.TrainingIteration: requires a network with ten outputs, the rows of the target `preprocess` builds with its default `n_class`. With another output size the source subtracts a `(10, B)` target from an `(output_size, B)` prediction, which broadcasting is not modelled for. Labels outside `[-10, 10)` make `preprocess` raise, as `Preprocess.OneHot` states for any `n_class`.
- Iteration.ValidationIteration: requires a network with ten outputs, for the same reason.
- Python integers and the `lr` float are `nat` sizes and a `real` rate.

=== FILE: activations.dfy ===
/** The classifier's activation functions over exact reals. The exponential is
    not computed: it is a parameter of which only positivity is known, which is
    all the properties below need. */
module Activations {
  import opened Matrices

  /** What the model knows of `np.exp`: it is positive everywhere. Every
      function below that exponentiates takes the exponential as a parameter
      `exp` and requires this of it. */
  ghost predicate Positive(exp: real -> real) {
    forall x :: exp(x) > 0.0
  }

  /** `_sigmoid` on one entry: `1 / (1 + exp(-x))`. */
  function Sigmoid(exp: real -> real, x: real): (s: real)
    requires Positive(exp)
    ensures 0.0 < s < 1.0
  {
    assert exp(-x) > 0.0;
    1.0 / (1.0 + exp(-x))
  }

  /** `_sigmoid_deriv` on one entry: `σ(x)·(1 − σ(x))`, evaluated on the
      pre-activation. It is positive and never exceeds one quarter. */
  function SigmoidDeriv(exp: real -> real, x: real): (d: real)
    requires Positive(exp)
    ensures 0.0 < d <= 0.25
  {
    var s := Sigmoid(exp, x);
    assert 0.25 - s * (1.0 - s) == (s - 0.5) * (s - 0.5);
    s * (1.0 - s)
  }

  /** With `exp(0) == 1`, the sigmoid is one half at the origin and its
      derivative there is one quarter, its largest value. */
  lemma SigmoidAtZero(exp: real -> real)
    requires Positive(exp)
    requires exp(0.0) == 1.0
    ensures Sigmoid(exp, 0.0) == 0.5
    ensures SigmoidDeriv(exp, 0.0) == 0.25
  {
  }

  /** For an exponential with `exp(x)·exp(-x) == 1`, the sigmoid is
      symmetric about one half, `σ(x) + σ(-x) == 1`, so the derivative is
      `σ(x)·σ(-x)`. */
  lemma SigmoidSymmetric(exp: real -> real, x: real)
    requires Positive(exp)
    requires exp(x) * exp(-x) == 1.0
    ensures Sigmoid(exp, x) + Sigmoid(exp, -x) == 1.0
    ensures SigmoidDeriv(exp, x) == Sigmoid(exp, x) * Sigmoid(exp, -x)
  {
    var a, b := exp(-x), exp(x);
    assert exp(-(-x)) == b;
    assert a > 0.0 && b > 0.0;
    var s1, s2 := 1.0 / (1.0 + a), 1.0 / (1.0 + b);
    assert (1.0 + a) * (1.0 + b) == 2.0 + a + b by {
      assert a * b == 1.0;
    }
    assert s1 + s2 == (2.0 + a + b) / ((1.0 + a) * (1.0 + b));
    assert Sigmoid(exp, x) == s1 && Sigmoid(exp, -x) == s2;
  }

  /** `_sigmoid` applied entrywise. */
  function SigmoidM(exp: real -> real, m: Matrix): (r: Matrix)
    requires Positive(exp)
    requires m.WF()
    ensures r.SameShape(m)
    ensures forall i, j :: 0 <= i < m.rows && 0 <= j < m.cols ==>
      r.e[i][j] == Sigmoid(exp, m.e[i][j]) && 0.0 < r.e[i][j] < 1.0
  {
    Map(m, x => Sigmoid(exp, x))
  }

  /** `_sigmoid_deriv` applied entrywise. */
  function SigmoidDerivM(exp: real -> real, m: Matrix): (r: Matrix)
    requires Positive(exp)
    requires m.WF()
    ensures r.SameShape(m)
    ensures forall i, j :: 0 <= i < m.rows && 0 <= j < m.cols ==>
      r.e[i][j] == SigmoidDeriv(exp, m.e[i][j]) && 0.0 < r.e[i][j] <= 0.25
  {
    Map(m, x => SigmoidDeriv(exp, x))
  }

  /** Divides every entry by the sum of its column (`e / e.sum(axis=0)`). */
  function Normalize(m: Matrix): (r: Matrix)
    requires m.WF() && m.rows > 0
    requires forall i, j :: 0 <= i < m.rows && 0 <= j < m.cols ==> m.e[i][j] > 0.0
    ensures r.SameShape(m)
    ensures ColumnStochastic(r)
    ensures forall i, j :: 0 <= i < m.rows && 0 <= j < m.cols ==> r.e[i][j] > 0.0
    ensures forall j :: 0 <= j < m.cols ==> ColSum(m, j) > 0.0
    ensures forall i, j :: 0 <= i < m.rows && 0 <= j < m.cols ==> r.e[i][j] == m.e[i][j] / ColSum(m, j)
  {
    ColSumsPositive(m);
    var r := Matrix(m.rows, m.cols,
      seq(m.rows, i requires 0 <= i < m.rows =>
        seq(m.cols, j requires 0 <= j < m.cols => m.e[i][j] / ColSum(m, j))));
    forall j | 0 <= j < m.cols
      ensures ColSum(r, j) == 1.0
    {
      var c, d := Col(m, j), ColSum(m, j);
      assert forall k :: 0 <= k < m.rows ==> Col(r, j)[k] == c[k] / d;
      SumDivided(c, Col(r, j), d);
      assert Sum(c) / d == 1.0;
    }
    r
  }

  /** Every column of a matrix with positive entries has a positive sum. */
  lemma ColSumsPositive(m: Matrix)
    requires m.WF() && m.rows > 0
    requires forall i, j :: 0 <= i < m.rows && 0 <= j < m.cols ==> m.e[i][j] > 0.0
    ensures forall j :: 0 <= j < m.cols ==> ColSum(m, j) > 0.0
  {
    forall j | 0 <= j < m.cols
      ensures ColSum(m, j) > 0.0
    {
      SumPositive(Col(m, j));
    }
  }

  /** `_softmax`: exponentiate after subtracting the largest entry of the whole
      matrix, then normalise every column. `np.max` refuses an empty array,
      hence the requirement that there be at least one entry. */
  function Softmax(exp: real -> real, m: Matrix): (r: Matrix)
    requires Positive(exp)
    requires m.WF() && m.rows > 0 && m.cols > 0
    ensures r.SameShape(m)
    ensures ColumnStochastic(r)
    ensures forall i, j :: 0 <= i < m.rows && 0 <= j < m.cols ==> 0.0 < r.e[i][j] <= 1.0
  {
    var top := MaxEntry(m);
    var r := Normalize(Map(m, x => exp(x - top)));
    forall i, j | 0 <= i < m.rows && 0 <= j < m.cols
      ensures r.e[i][j] <= 1.0
    {
      StochasticEntryAtMostOne(r, i, j);
    }
    r
  }

  /** No entry of a column-stochastic matrix exceeds one. */
  lemma StochasticEntryAtMostOne(m: Matrix, i: nat, j: nat)
    requires m.WF() && ColumnStochastic(m)
    requires i < m.rows && j < m.cols
    ensures m.e[i][j] <= 1.0
  {
    var c := Col(m, j);
    assert forall n :: 0 <= n < |c| ==> c[n] >= 0.0;
    SumBoundsEach(c, i);
    assert Sum(c) == ColSum(m, j) == 1.0;
  }

  /** `np.exp` applied entrywise, without a shift. */
  function ExpM(exp: real -> real, m: Matrix): (r: Matrix)
    requires Positive(exp)
    requires m.WF()
    ensures r.SameShape(m)
    ensures forall i, j :: 0 <= i < m.rows && 0 <= j < m.cols ==> r.e[i][j] == exp(m.e[i][j]) > 0.0
  {
    var r := Map(m, exp);
    forall i, j | 0 <= i < m.rows && 0 <= j < m.cols
      ensures r.e[i][j] > 0.0
    {
      var x := m.e[i][j];
      assert exp(x) > 0.0;
    }
    r
  }

  /** `exp(x - c[j])` for every entry `x` of column `j`: the exponentials
      after a shift that may differ from column to column. */
  function ShiftedExp(exp: real -> real, m: Matrix, c: seq<real>): (r: Matrix)
    requires Positive(exp)
    requires m.WF() && |c| == m.cols
    ensures r.SameShape(m)
    ensures forall i, j :: 0 <= i < m.rows && 0 <= j < m.cols ==> r.e[i][j] == exp(m.e[i][j] - c[j]) > 0.0
  {
    Matrix(m.rows, m.cols,
      seq(m.rows, i requires 0 <= i < m.rows =>
        seq(m.cols, j requires 0 <= j < m.cols => exp(m.e[i][j] - c[j]))))
  }

  /** `exp(x - c) == exp(x)·exp(-c)`: the one law of the exponential that the
      shift in `_softmax` relies on. */
  predicate ExpSplits(exp: real -> real, x: real, c: real) {
    exp(x - c) == exp(x) * exp(-c)
  }

  /** The value subtracted before exponentiating does not matter in exact
      arithmetic wherever `exp(x - c) == exp(x)·exp(-c)`: shifting by the global
      maximum (as `_softmax` does), by a per-column maximum, or by any other
      per-column constant gives the same probabilities as no shift at all. */
  lemma SoftmaxShiftIrrelevant(exp: real -> real, m: Matrix, c: seq<real>)
    requires Positive(exp)
    requires m.WF() && m.rows > 0 && |c| == m.cols
    requires forall i, j {:trigger ExpSplits(exp, m.e[i][j], c[j])} ::
      0 <= i < m.rows && 0 <= j < m.cols ==> ExpSplits(exp, m.e[i][j], c[j])
    ensures Normalize(ShiftedExp(exp, m, c)) == Normalize(ExpM(exp, m))
  {
    var l, r := Normalize(ShiftedExp(exp, m, c)), Normalize(ExpM(exp, m));
    forall i | 0 <= i < m.rows
      ensures l.e[i] == r.e[i]
    {
      forall j | 0 <= j < m.cols
        ensures l.e[i][j] == r.e[i][j]
      {
        ShiftedProbability(exp, m, c, i, j);
      }
    }
  }

  /** One entry of the statement above. */
  lemma ShiftedProbability(exp: real -> real, m: Matrix, c: seq<real>, i: nat, j: nat)
    requires Positive(exp)
    requires m.WF() && m.rows > 0 && |c| == m.cols && i < m.rows && j < m.cols
    requires forall i, j {:trigger ExpSplits(exp, m.e[i][j], c[j])} ::
      0 <= i < m.rows && 0 <= j < m.cols ==> ExpSplits(exp, m.e[i][j], c[j])
    ensures Normalize(ShiftedExp(exp, m, c)).e[i][j] == Normalize(ExpM(exp, m)).e[i][j]
  {
    var s, u, k := ShiftedExp(exp, m, c), ExpM(exp, m), exp(-c[j]);
    ShiftedColumnSum(exp, m, c, j);
    ShiftedColumn(exp, m, c, j);
    ColSumsPositive(u);
    var x, d := u.e[i][j], ColSum(u, j);
    assert s.e[i][j] == Col(s, j)[i] == k * x;
    assert ColSum(s, j) == k * d;
    assert k > 0.0 && d > 0.0;
    CancelFactor(x, d, k);
    assert Normalize(s).e[i][j] == (k * x) / (k * d);
  }

  /** Shifting column `j` by `c[j]` multiplies its sum of exponentials by `exp(-c[j])`. */
  lemma ShiftedColumnSum(exp: real -> real, m: Matrix, c: seq<real>, j: nat)
    requires Positive(exp)
    requires m.WF() && |c| == m.cols && j < m.cols
    requires forall i, j {:trigger ExpSplits(exp, m.e[i][j], c[j])} ::
      0 <= i < m.rows && 0 <= j < m.cols ==> ExpSplits(exp, m.e[i][j], c[j])
    ensures ColSum(ShiftedExp(exp, m, c), j) == exp(-c[j]) * ColSum(ExpM(exp, m), j)
  {
    var s, u := Col(ShiftedExp(exp, m, c), j), Col(ExpM(exp, m), j);
    ShiftedColumn(exp, m, c, j);
    SumScaled(u, s, exp(-c[j]));
  }

  /** Every entry of a shifted column is its unshifted exponential times `exp(-c[j])`. */
  lemma ShiftedColumn(exp: real -> real, m: Matrix, c: seq<real>, j: nat)
    requires Positive(exp)
    requires m.WF() && |c| == m.cols && j < m.cols
    requires forall i, j {:trigger ExpSplits(exp, m.e[i][j], c[j])} ::
      0 <= i < m.rows && 0 <= j < m.cols ==> ExpSplits(exp, m.e[i][j], c[j])
    ensures forall n :: 0 <= n < m.rows ==>
      Col(ShiftedExp(exp, m, c), j)[n] == exp(-c[j]) * Col(ExpM(exp, m), j)[n]
  {
    forall n | 0 <= n < m.rows
      ensures Col(ShiftedExp(exp, m, c), j)[n] == exp(-c[j]) * Col(ExpM(exp, m), j)[n]
    {
      ShiftedEntry(exp, m, c, j, n);
    }
  }

  /** One entry of `ShiftedColumn`, from the split of `exp` at that entry. */
  lemma ShiftedEntry(exp: real -> real, m: Matrix, c: seq<real>, j: nat, n: nat)
    requires Positive(exp)
    requires m.WF() && |c| == m.cols && j < m.cols && n < m.rows
    requires ExpSplits(exp, m.e[n][j], c[j])
    ensures Col(ShiftedExp(exp, m, c), j)[n] == exp(-c[j]) * Col(ExpM(exp, m), j)[n]
  {
    assert Col(ShiftedExp(exp, m, c), j)[n] == exp(m.e[n][j] - c[j]);
    assert Col(ExpM(exp, m), j)[n] == exp(m.e[n][j]);
  }

  /** `_softmax` equals the unshifted normalised exponential. */
  lemma SoftmaxIsNormalizedExp(exp: real -> real, m: Matrix)
    requires Positive(exp)
    requires m.WF() && m.rows > 0 && m.cols > 0
    requires forall i, j {:trigger ExpSplits(exp, m.e[i][j], MaxEntry(m))} ::
      0 <= i < m.rows && 0 <= j < m.cols ==> ExpSplits(exp, m.e[i][j], MaxEntry(m))
    ensures Softmax(exp, m) == Normalize(ExpM(exp, m))
  {
    var top := MaxEntry(m);
    var c := seq(m.cols, j => top);
    assert Map(m, x => exp(x - top)) == ShiftedExp(exp, m, c) by {
      var a, b := Map(m, x => exp(x - top)), ShiftedExp(exp, m, c);
      forall i | 0 <= i < m.rows
        ensures a.e[i] == b.e[i]
      {
      }
    }
    SoftmaxShiftIrrelevant(exp, m, c);
  }

  /** Multiplying every summand by `c` multiplies the sum by `c`. */
  lemma {:induction false} SumScaled(s: seq<real>, t: seq<real>, c: real)
    requires |s| == |t|
    requires forall n :: 0 <= n < |s| ==> t[n] == c * s[n]
    ensures Sum(t) == c * Sum(s)
  {
    if |s| > 0 {
      SumScaled(s[1..], t[1..], c);
    }
  }

  /** A common non-zero factor cancels from a quotient. */
  lemma CancelFactor(x: real, d: real, c: real)
    requires d != 0.0 && c != 0.0
    ensures (c * x) / (c * d) == x / d
  {
  }
}

=== FILE: errors.dfy ===
/** The exceptions the classifier and its preprocessing can raise, and a
    result type that carries either a value or one of them. */
module Errors {

  datatype Error =
    /** `KeyError` from the `init_weights` table: the init method is not `'random'`. */
    | UnknownInitMethod
    /** `ValueError` from `np.dot`: the inner dimensions of a product differ. */
    | ShapeMismatch
    /** `IndexError` from `self.W[1]` or `self.W[2]`: fewer than three weight matrices. */
    | MissingLayer
    /** `ValueError` from `np.max` on an array with no entries. */
    | EmptyReduction
    /** The exception `update_weights` raises when the model is not in training mode. */
    | NotInTrainingMode
    /** `IndexError` from `grads[i]`: fewer gradients than weight matrices. */
    | MissingGradient
    /** `IndexError` from the one-hot assignment: a label outside the class range. */
    | LabelOutOfRange

  datatype Result<T> = Ok(value: T) | Err(error: Error)
}

=== FILE: iteration.dfy ===
/** One iteration of the training and validation loops of `main`:
    preprocess a batch, run it forward, and in training mode back-propagate
    and update the weights. */
module Iteration {
  import opened Matrices
  import opened Activations
  import opened Errors
  import opened Network
  import opened Preprocess

  /** Against a one-hot target, the quantity `loss` takes the logarithm of
      is, for each example, the probability the prediction gives to the
      example's true class. */
  lemma TrueClassLikelihood(prediction: Matrix, labels: seq<int>, n: nat)
    requires OneHot(labels, n).Ok?
    requires prediction.Shaped(n, |labels|)
    ensures var l := Likelihoods(prediction, OneHot(labels, n).value);
      forall t :: 0 <= t < |labels| ==> l[t] == prediction.e[RowIndex(labels[t], n)][t]
  {
    var y := OneHot(labels, n).value;
    forall t | 0 <= t < |labels|
      ensures Likelihoods(prediction, y)[t] == prediction.e[RowIndex(labels[t], n)][t]
    {
      DotWithUnit(Col(prediction, t), Col(y, t), RowIndex(labels[t], n));
    }
  }

  /** For a prediction whose entries lie in `(0, 1]`, as every prediction
      of `forward` does (`Network.ForwardShapes`), and a one-hot target,
      every per-example likelihood lies in `(0, 1]`, so the logarithm in
      `loss` is defined and the loss is non-negative. */
  lemma LikelihoodsInUnitInterval(prediction: Matrix, labels: seq<int>, n: nat)
    requires OneHot(labels, n).Ok?
    requires prediction.Shaped(n, |labels|)
    requires forall i, j :: 0 <= i < n && 0 <= j < |labels| ==> 0.0 < prediction.e[i][j] <= 1.0
    ensures var l := Likelihoods(prediction, OneHot(labels, n).value);
      forall t :: 0 <= t < |labels| ==> 0.0 < l[t] <= 1.0
  {
    TrueClassLikelihood(prediction, labels, n);
  }

  /** Lines `preprocess`, `forward`, `backward`, `update_weights` of the
      training loop, after `model.training()`. The loop calls `preprocess`
      with its default `n_class`, so the target has ten rows; for a network
      with ten outputs, a batch of the right width and labels in range,
      every call succeeds, and the updated model keeps its layer sizes, its
      learning rate and its training mode. */
  lemma TrainingIteration(nn: NN, exp: real -> real, x: Matrix, labels: seq<int>)
    requires Positive(exp)
    requires nn.Valid() && |nn.hidden| == 2 && nn.outputSize == DefaultClasses
    requires x.Shaped(nn.inputSize, |labels|) && |labels| > 0
    requires forall t :: 0 <= t < |labels| ==> InRange(labels[t], DefaultClasses)
    ensures var net := Training(nn);
      var f := Forward(net, exp, x);
      var y := OneHot(labels, DefaultClasses);
      && f.Ok? && y.Ok?
      && BackwardReady(net, y.value, f.value.prediction, f.value.cache)
      && var s := UpdateWeights(net, Backward(net, exp, y.value, f.value.prediction, f.value.cache));
         && s.outcome == Done
         && s.net.Valid() && s.net.Sizes() == nn.Sizes() && s.net.lr == nn.lr && s.net.train
  {
    var net := Training(nn);
    ForwardShapes(net, exp, x);
    var f := Forward(net, exp, x).value;
    var y := OneHot(labels, DefaultClasses).value;
    assert BackwardReady(net, y, f.prediction, f.cache);
    var grads := Backward(net, exp, y, f.prediction, f.cache);
    assert forall l {:trigger grads[l]} :: 0 <= l < |net.W| && l < |grads| ==> grads[l].SameShape(net.W[l]);
  }

  /** Lines `preprocess` and `forward` of the validation loop, after
      `model.eval()`, for a network with ten outputs: both succeed, and an
      update attempted there would raise and leave the weights untouched. */
  lemma ValidationIteration(nn: NN, exp: real -> real, x: Matrix, labels: seq<int>)
    requires Positive(exp)
    requires nn.Valid() && |nn.hidden| == 2 && nn.outputSize == DefaultClasses
    requires x.Shaped(nn.inputSize, |labels|) && |labels| > 0
    requires forall t :: 0 <= t < |labels| ==> InRange(labels[t], DefaultClasses)
    ensures var net := Eval(nn);
      var f := Forward(net, exp, x);
      var y := OneHot(labels, DefaultClasses);
      && f.Ok? && y.Ok?
      && BackwardReady(net, y.value, f.value.prediction, f.value.cache)
      && UpdateWeights(net, Backward(net, exp, y.value, f.value.prediction, f.value.cache))
         == Step(net, Raised(NotInTrainingMode))
  {
    var net := Eval(nn);
    ForwardShapes(net, exp, x);
    var f := Forward(net, exp, x).value;
    var y := OneHot(labels, DefaultClasses).value;
    assert BackwardReady(net, y, f.prediction, f.cache);
    var grads := Backward(net, exp, y, f.prediction, f.cache);
    EvalBlocksUpdate(nn, grads);
  }

  /** When the prediction already equals the one-hot target, a training
      step leaves every weight where it was. */
  lemma PerfectPredictionKeepsWeights(nn: NN, exp: real -> real, prediction: Matrix, cache: Cache)
    requires Positive(exp)
    requires nn.train && |nn.hidden| == 2
    requires BackwardReady(nn, prediction, prediction, cache)
    ensures UpdateWeights(nn, Backward(nn, exp, prediction, prediction, cache)) == Step(nn, Done)
  {
    var grads := Backward(nn, exp, prediction, prediction, cache);
    PerfectPredictionNoGradient(nn, exp, prediction, cache);
    ThreeLayers(nn);
    ZeroStepKeepsWeights(nn, grads);
  }

  /** `backward` returns exactly three gradients, so a network built with
      more than two hidden layers, given a target of the prediction's shape,
      passes `forward` and `backward` (which use only the first three weight
      matrices) and then fails in `update_weights` when it asks for the
      fourth gradient. In the training loop the target has ten rows, so this
      happens only when the third hidden size is ten; otherwise the loop
      fails earlier: `forward` raises at `np.max` when that size is zero, and
      for any other size `backward` raises, at `target - prediction`, or at
      `np.dot(self.W[2], grad_f)` when the size is one and the subtraction
      broadcasts. */
  lemma DeeperNetworkCannotUpdate(nn: NN, exp: real -> real, target: Matrix, prediction: Matrix, cache: Cache)
    requires Positive(exp)
    requires nn.train && |nn.hidden| > 2
    requires BackwardReady(nn, target, prediction, cache)
    ensures UpdateWeights(nn, Backward(nn, exp, target, prediction, cache)) == Step(nn, Raised(MissingGradient))
  {
  }
}

=== FILE: matrices.dfy ===
/** Dense two-dimensional arrays of exact reals and the handful of NumPy
    operations the classifier uses on them: `np.dot`, `.T`, elementwise
    arithmetic and column sums (`sum(axis=0)`). */
module Matrices {

  /** A matrix keeps its shape explicitly, as a NumPy array does, so that a
      matrix with no rows still records how many columns it has. */
  datatype Matrix = Matrix(rows: nat, cols: nat, e: seq<seq<real>>) {

    /** The entries form a `rows` by `cols` rectangle. */
    predicate WF() {
      |e| == rows && forall i :: 0 <= i < |e| ==> |e[i]| == cols
    }

    predicate Shaped(r: nat, c: nat) {
      WF() && rows == r && cols == c
    }

    /** Two matrices of the same shape. */
    predicate SameShape(other: Matrix) {
      WF() && other.Shaped(rows, cols)
    }
  }

  /** Sum of a vector, first element first. */
  function Sum(s: seq<real>): (total: real) {
    if |s| == 0 then 0.0 else s[0] + Sum(s[1..])
  }

  /** Inner product of two vectors of equal length. */
  function Dot(u: seq<real>, v: seq<real>): (d: real)
    requires |u| == |v|
  {
    if |u| == 0 then 0.0 else u[0] * v[0] + Dot(u[1..], v[1..])
  }

  /** Column `j` of `m`, as a vector. */
  function Col(m: Matrix, j: nat): (c: seq<real>)
    requires m.WF() && j < m.cols
    ensures |c| == m.rows
    ensures forall k :: 0 <= k < m.rows ==> c[k] == m.e[k][j]
  {
    seq(m.rows, k requires 0 <= k < m.rows => m.e[k][j])
  }

  /** `m.sum(axis=0)[j]`: the sum of column `j`. */
  function ColSum(m: Matrix, j: nat): (total: real)
    requires m.WF() && j < m.cols
  {
    Sum(Col(m, j))
  }

  /** Every entry is non-negative and every column sums to one: each column
      is a probability distribution over the rows. */
  predicate ColumnStochastic(m: Matrix)
    requires m.WF()
  {
    && (forall i, j :: 0 <= i < m.rows && 0 <= j < m.cols ==> m.e[i][j] >= 0.0)
    && (forall j :: 0 <= j < m.cols ==> ColSum(m, j) == 1.0)
  }

  /** `m.T` */
  function Transpose(m: Matrix): (t: Matrix)
    requires m.WF()
    ensures t.Shaped(m.cols, m.rows)
    ensures forall i, j {:trigger t.e[j][i]} :: 0 <= i < m.rows && 0 <= j < m.cols ==> t.e[j][i] == m.e[i][j]
  {
    Matrix(m.cols, m.rows,
      seq(m.cols, j requires 0 <= j < m.cols =>
        seq(m.rows, i requires 0 <= i < m.rows => m.e[i][j])))
  }

  /** `np.dot(a, b)` for two-dimensional arrays whose inner dimensions agree. */
  function MatMul(a: Matrix, b: Matrix): (p: Matrix)
    requires a.WF() && b.WF() && a.cols == b.rows
    ensures p.Shaped(a.rows, b.cols)
    ensures forall i, j :: 0 <= i < a.rows && 0 <= j < b.cols ==> p.e[i][j] == Dot(a.e[i], Col(b, j))
  {
    Matrix(a.rows, b.cols,
      seq(a.rows, i requires 0 <= i < a.rows =>
        seq(b.cols, j requires 0 <= j < b.cols => Dot(a.e[i], Col(b, j)))))
  }

  /** Applies `f` to every entry (NumPy's elementwise ufunc application). */
  function Map(m: Matrix, f: real -> real): (r: Matrix)
    requires m.WF()
    ensures r.SameShape(m)
    ensures forall i, j :: 0 <= i < m.rows && 0 <= j < m.cols ==> r.e[i][j] == f(m.e[i][j])
  {
    Matrix(m.rows, m.cols,
      seq(m.rows, i requires 0 <= i < m.rows =>
        seq(m.cols, j requires 0 <= j < m.cols => f(m.e[i][j]))))
  }

  /** Combines two equally shaped matrices entry by entry with `f`. */
  function Zip(a: Matrix, b: Matrix, f: (real, real) -> real): (r: Matrix)
    requires a.SameShape(b)
    ensures r.SameShape(a)
    ensures forall i, j :: 0 <= i < a.rows && 0 <= j < a.cols ==> r.e[i][j] == f(a.e[i][j], b.e[i][j])
  {
    Matrix(a.rows, a.cols,
      seq(a.rows, i requires 0 <= i < a.rows =>
        seq(a.cols, j requires 0 <= j < a.cols => f(a.e[i][j], b.e[i][j]))))
  }

  /** `a - b` */
  function Sub(a: Matrix, b: Matrix): (r: Matrix)
    requires a.SameShape(b)
    ensures r.SameShape(a)
    ensures forall i, j :: 0 <= i < a.rows && 0 <= j < a.cols ==> r.e[i][j] == a.e[i][j] - b.e[i][j]
  {
    Zip(a, b, (x, y) => x - y)
  }

  /** `np.multiply(a, b)`, the Hadamard product. */
  function Hadamard(a: Matrix, b: Matrix): (r: Matrix)
    requires a.SameShape(b)
    ensures r.SameShape(a)
    ensures forall i, j :: 0 <= i < a.rows && 0 <= j < a.cols ==> r.e[i][j] == a.e[i][j] * b.e[i][j]
  {
    Zip(a, b, (x, y) => x * y)
  }

  /** Unary minus, `-m`. */
  function Neg(m: Matrix): (r: Matrix)
    requires m.WF()
    ensures r.SameShape(m)
    ensures forall i, j :: 0 <= i < m.rows && 0 <= j < m.cols ==> r.e[i][j] == -m.e[i][j]
  {
    Map(m, x => -x)
  }

  /** `k * m` */
  function Scale(k: real, m: Matrix): (r: Matrix)
    requires m.WF()
    ensures r.SameShape(m)
    ensures forall i, j :: 0 <= i < m.rows && 0 <= j < m.cols ==> r.e[i][j] == k * m.e[i][j]
  {
    Map(m, x => k * x)
  }

  /** Every entry is zero. */
  predicate IsZero(m: Matrix) {
    m.WF() && forall i, j :: 0 <= i < m.rows && 0 <= j < m.cols ==> m.e[i][j] == 0.0
  }

  /** Largest element of a non-empty vector. */
  function MaxOf(s: seq<real>): (x: real)
    requires |s| > 0
    ensures forall k :: 0 <= k < |s| ==> s[k] <= x
    ensures exists k :: 0 <= k < |s| && s[k] == x
  {
    if |s| == 1 then s[0]
    else
      var rest := MaxOf(s[1..]);
      assert forall k :: 1 <= k < |s| ==> s[k] == s[1..][k - 1];
      if s[0] >= rest then s[0] else rest
  }

  /** `np.max(m)`: the largest entry of the whole matrix (not per column);
      NumPy refuses an empty array, hence the requirement. */
  function MaxEntry(m: Matrix): (x: real)
    requires m.WF() && m.rows > 0 && m.cols > 0
    ensures forall i, j :: 0 <= i < m.rows && 0 <= j < m.cols ==> m.e[i][j] <= x
    ensures exists i, j :: 0 <= i < m.rows && 0 <= j < m.cols && m.e[i][j] == x
  {
    var rowMax := seq(m.rows, i requires 0 <= i < m.rows => MaxOf(m.e[i]));
    var x := MaxOf(rowMax);
    assert forall i :: 0 <= i < m.rows ==> rowMax[i] == MaxOf(m.e[i]);
    x
  }

  /** The transpose undoes itself. */
  lemma TransposeTwice(m: Matrix)
    requires m.WF()
    ensures Transpose(Transpose(m)) == m
  {
    var t := Transpose(Transpose(m));
    forall i | 0 <= i < m.rows
      ensures t.e[i] == m.e[i]
    {
    }
  }

  /** The inner product does not depend on the order of its arguments. */
  lemma {:induction false} DotCommutes(u: seq<real>, v: seq<real>)
    requires |u| == |v|
    ensures Dot(u, v) == Dot(v, u)
  {
    if |u| > 0 {
      DotCommutes(u[1..], v[1..]);
    }
  }

  /** A column of the transpose is a row of the original, and a row of the
      transpose is a column of the original. */
  lemma TransposeRowsAndCols(m: Matrix)
    requires m.WF()
    ensures forall i :: 0 <= i < m.rows ==> Col(Transpose(m), i) == m.e[i]
    ensures forall j :: 0 <= j < m.cols ==> Transpose(m).e[j] == Col(m, j)
  {
  }

  /** `(a·b)ᵀ == bᵀ·aᵀ` */
  lemma MatMulTranspose(a: Matrix, b: Matrix)
    requires a.WF() && b.WF() && a.cols == b.rows
    ensures Transpose(MatMul(a, b)) == MatMul(Transpose(b), Transpose(a))
  {
    var l := Transpose(MatMul(a, b));
    var r := MatMul(Transpose(b), Transpose(a));
    TransposeRowsAndCols(a);
    TransposeRowsAndCols(b);
    forall j, i | 0 <= j < b.cols && 0 <= i < a.rows
      ensures l.e[j][i] == r.e[j][i]
    {
      DotCommutes(a.e[i], Col(b, j));
    }
    forall j | 0 <= j < b.cols
      ensures l.e[j] == r.e[j]
    {
    }
  }

  /** The product of two transposes, transposed back, is the product in the
      other order: `(a·bᵀ)ᵀ == b·aᵀ`. */
  lemma TransposedOuter(a: Matrix, b: Matrix)
    requires a.WF() && b.WF() && a.cols == b.cols
    ensures Transpose(MatMul(a, Transpose(b))) == MatMul(b, Transpose(a))
  {
    MatMulTranspose(a, Transpose(b));
    TransposeTwice(b);
  }

  /** Dividing every summand by `d` divides the sum by `d`. */
  lemma {:induction false} SumDivided(s: seq<real>, t: seq<real>, d: real)
    requires d != 0.0 && |s| == |t|
    requires forall k :: 0 <= k < |s| ==> t[k] == s[k] / d
    ensures Sum(t) == Sum(s) / d
  {
    if |s| > 0 {
      SumDivided(s[1..], t[1..], d);
    }
  }

  /** A non-empty sum of positive reals is positive. */
  lemma {:induction false} SumPositive(s: seq<real>)
    requires |s| > 0
    requires forall k :: 0 <= k < |s| ==> s[k] > 0.0
    ensures Sum(s) > 0.0
  {
    if |s| > 1 {
      SumPositive(s[1..]);
    }
  }

  /** A sum of non-negative reals is at least each of its summands. */
  lemma {:induction false} SumBoundsEach(s: seq<real>, k: nat)
    requires k < |s|
    requires forall n :: 0 <= n < |s| ==> s[n] >= 0.0
    ensures s[k] <= Sum(s)
  {
    if k == 0 {
      SumNonNegative(s[1..]);
    } else {
      SumBoundsEach(s[1..], k - 1);
    }
  }

  /** A sum of non-negative reals is non-negative. */
  lemma {:induction false} SumNonNegative(s: seq<real>)
    requires forall n :: 0 <= n < |s| ==> s[n] >= 0.0
    ensures Sum(s) >= 0.0
  {
    if |s| > 0 {
      SumNonNegative(s[1..]);
    }
  }

  /** A vector that is zero except at position `k` sums to its entry at `k`. */
  lemma {:induction false} SumSingleNonZero(s: seq<real>, k: nat)
    requires k < |s|
    requires forall n :: 0 <= n < |s| && n != k ==> s[n] == 0.0
    ensures Sum(s) == s[k]
  {
    if k == 0 {
      SumZero(s[1..]);
    } else {
      SumSingleNonZero(s[1..], k - 1);
    }
  }

  /** A vector of zeros sums to zero. */
  lemma {:induction false} SumZero(s: seq<real>)
    requires forall n :: 0 <= n < |s| ==> s[n] == 0.0
    ensures Sum(s) == 0.0
  {
    if |s| > 0 {
      SumZero(s[1..]);
    }
  }

  /** The sum of entrywise differences is the difference of the sums. */
  lemma {:induction false} SumDifference(a: seq<real>, b: seq<real>, c: seq<real>)
    requires |a| == |b| == |c|
    requires forall k :: 0 <= k < |c| ==> c[k] == a[k] - b[k]
    ensures Sum(c) == Sum(a) - Sum(b)
  {
    if |c| > 0 {
      SumDifference(a[1..], b[1..], c[1..]);
    }
  }

  /** The inner product with a zero vector is zero. */
  lemma {:induction false} DotZero(u: seq<real>, v: seq<real>)
    requires |u| == |v|
    requires forall k :: 0 <= k < |v| ==> v[k] == 0.0
    ensures Dot(u, v) == 0.0
  {
    if |u| > 0 {
      DotZero(u[1..], v[1..]);
    }
  }

  /** Multiplying by a zero matrix gives a zero matrix. */
  lemma MatMulZeroRight(a: Matrix, b: Matrix)
    requires a.WF() && IsZero(b) && a.cols == b.rows
    ensures IsZero(MatMul(a, b))
  {
    forall i, j | 0 <= i < a.rows && 0 <= j < b.cols
      ensures MatMul(a, b).e[i][j] == 0.0
    {
      DotZero(a.e[i], Col(b, j));
    }
  }

  /** Summing entrywise products is taking the inner product. */
  lemma {:induction false} SumOfProducts(a: seq<real>, b: seq<real>, c: seq<real>)
    requires |a| == |b| == |c|
    requires forall k :: 0 <= k < |c| ==> c[k] == a[k] * b[k]
    ensures Sum(c) == Dot(a, b)
  {
    if |c| > 0 {
      SumOfProducts(a[1..], b[1..], c[1..]);
    }
  }

  /** The inner product with a unit vector picks out one entry. */
  lemma {:induction false} DotWithUnit(u: seq<real>, v: seq<real>, k: nat)
    requires |u| == |v| && k < |v|
    requires v[k] == 1.0 && forall n :: 0 <= n < |v| && n != k ==> v[n] == 0.0
    ensures Dot(u, v) == u[k]
  {
    if k == 0 {
      DotZero(u[1..], v[1..]);
    } else {
      DotWithUnit(u[1..], v[1..], k - 1);
    }
  }
}

=== FILE: network.dfy ===
/** The feed-forward classifier `NN`: weight initialisation, the forward and
    backward passes, the gated weight update and the train/eval mode flag. */
module Network {
  import opened Matrices
  import opened Activations
  import opened Errors

  /** The state of an `NN` instance. `W[l]` is the weight matrix of layer
      `l`, of shape `(neurons_in, neurons_out)`; there are no biases. */
  datatype NN = NN(inputSize: nat, hidden: seq<nat>, outputSize: nat, lr: real, train: bool, W: seq<Matrix>) {

    /** `[input_size] + hidden_layers_size + [output_size]` */
    function Sizes(): (s: seq<nat>)
      ensures |s| == |hidden| + 2 && s[0] == inputSize && s[|s| - 1] == outputSize
    {
      [inputSize] + hidden + [outputSize]
    }

    /** One weight matrix per pair of consecutive layer sizes, `W[l]` of
        shape `(sizes[l], sizes[l + 1])`. */
    predicate Valid() {
      && |W| == |Sizes()| - 1
      && forall l :: 0 <= l < |W| ==> W[l].Shaped(Sizes()[l], Sizes()[l + 1])
    }
  }

  /** `_random(neurons_in, neurons_out)`. The normal draws are not modelled:
      `draw(layer, row, col)` stands for whatever value was drawn there. */
  function RandomMatrix(layer: nat, rows: nat, cols: nat, draw: (nat, nat, nat) -> real): (w: Matrix)
    ensures w.Shaped(rows, cols)
    ensures forall i, j :: 0 <= i < rows && 0 <= j < cols ==> w.e[i][j] == draw(layer, i, j)
  {
    Matrix(rows, cols, seq(rows, i requires 0 <= i < rows => seq(cols, j requires 0 <= j < cols => draw(layer, i, j))))
  }

  /** `_initialize_weights(init_method)`: looks the method up in a table that
      holds only `'random'`, then builds one matrix per consecutive pair of sizes. */
  function InitWeights(sizes: seq<nat>, initMethod: string, draw: (nat, nat, nat) -> real): (r: Result<seq<Matrix>>)
    requires |sizes| >= 2
    ensures r.Ok? <==> initMethod == "random"
    ensures r.Err? ==> r.error == UnknownInitMethod
    ensures r.Ok? ==> |r.value| == |sizes| - 1
    ensures r.Ok? ==> forall l :: 0 <= l < |r.value| ==> r.value[l].Shaped(sizes[l], sizes[l + 1])
  {
    if initMethod != "random" then Err(UnknownInitMethod)
    else Ok(seq(|sizes| - 1, l requires 0 <= l < |sizes| - 1 => RandomMatrix(l, sizes[l], sizes[l + 1], draw)))
  }

  /** `NN(input_size, output_size, hidden_layers_size, init, lr)`: a model in
      evaluation mode whose weights have the shapes the sizes dictate. */
  function Init(inputSize: nat, outputSize: nat, hidden: seq<nat>, initMethod: string, lr: real,
                draw: (nat, nat, nat) -> real): (r: Result<NN>)
    ensures r.Ok? <==> initMethod == "random"
    ensures r.Err? ==> r.error == UnknownInitMethod
    ensures r.Ok? ==> && r.value.Valid()
                      && r.value.inputSize == inputSize && r.value.outputSize == outputSize
                      && r.value.hidden == hidden && r.value.lr == lr && !r.value.train
                      && |r.value.W| == |hidden| + 1
  {
    var sizes := [inputSize] + hidden + [outputSize];
    match InitWeights(sizes, initMethod, draw)
    case Err(e) => Err(e)
    case Ok(w) => Ok(NN(inputSize, hidden, outputSize, lr, false, w))
  }

  /** Consecutive weight matrices chain: the output width of layer `l` is the
      input height of layer `l + 1`, so their product is always defined. */
  lemma LayersChain(nn: NN)
    requires nn.Valid()
    ensures forall l :: 0 <= l < |nn.W| - 1 ==> nn.W[l].cols == nn.W[l + 1].rows
    ensures nn.W[0].rows == nn.inputSize && nn.W[|nn.W| - 1].cols == nn.outputSize
  {
    forall l | 0 <= l < |nn.W| - 1
      ensures nn.W[l].cols == nn.W[l + 1].rows
    {
      assert nn.W[l].Shaped(nn.Sizes()[l], nn.Sizes()[l + 1]);
      assert nn.W[l + 1].Shaped(nn.Sizes()[l + 1], nn.Sizes()[l + 2]);
    }
    assert nn.W[0].Shaped(nn.Sizes()[0], nn.Sizes()[1]);
    assert nn.W[|nn.W| - 1].Shaped(nn.Sizes()[|nn.W| - 1], nn.Sizes()[|nn.W|]);
  }

  /** The default configuration, `NN()`: three layers of shapes
      `(784, 1024)`, `(1024, 2048)` and `(2048, 10)`. */
  lemma DefaultShapes(draw: (nat, nat, nat) -> real)
    ensures var r := Init(784, 10, [1024, 2048], "random", 0.001, draw);
      && r.Ok? && |r.value.W| == 3
      && r.value.W[0].Shaped(784, 1024)
      && r.value.W[1].Shaped(1024, 2048)
      && r.value.W[2].Shaped(2048, 10)
  {
    var r := Init(784, 10, [1024, 2048], "random", 0.001, draw);
    assert r.value.Sizes() == [784, 1024, 2048, 10];
  }

  /** The three weight matrices `forward` and `backward` use, with the
      shapes their layer sizes give them. */
  lemma ThreeLayers(nn: NN)
    requires nn.Valid() && |nn.hidden| >= 2
    ensures |nn.W| >= 3
    ensures nn.W[0].Shaped(nn.Sizes()[0], nn.Sizes()[1])
    ensures nn.W[1].Shaped(nn.Sizes()[1], nn.Sizes()[2])
    ensures nn.W[2].Shaped(nn.Sizes()[2], nn.Sizes()[3])
  {
  }

  /** The seven intermediate arrays `forward` keeps for `backward`. */
  datatype Cache = Cache(h0: Matrix, a1: Matrix, h1: Matrix, a2: Matrix, h2: Matrix, a3: Matrix, h3: Matrix)

  /** The cache of a batch of `b` examples through layers of sizes `s`. */
  predicate CacheShaped(c: Cache, s: seq<nat>, b: nat)
    requires |s| >= 4
  {
    && c.h0.Shaped(s[0], b)
    && c.a1.Shaped(s[1], b) && c.h1.Shaped(s[1], b)
    && c.a2.Shaped(s[2], b) && c.h2.Shaped(s[2], b)
    && c.a3.Shaped(s[3], b) && c.h3.Shaped(s[3], b)
  }

  /** What `forward` returns: the prediction `h3` and the cache. */
  datatype ForwardOut = ForwardOut(prediction: Matrix, cache: Cache)

  /** `forward(X)`. The three layers are hard-wired (`W[0]`, `W[1]`, `W[2]`);
      the failures are, in the order they would be raised: `X` of the wrong
      height for `np.dot`, fewer than three weight matrices, and an empty
      output for `np.max` inside `_softmax`. */
  function Forward(nn: NN, exp: real -> real, x: Matrix): (r: Result<ForwardOut>)
    requires Positive(exp)
    requires nn.Valid() && x.WF()
    ensures r.Ok? <==> x.rows == nn.inputSize && |nn.hidden| >= 2 && nn.Sizes()[3] > 0 && x.cols > 0
    ensures r.Err? ==> r.error == (if x.rows != nn.inputSize then ShapeMismatch
                                   else if |nn.hidden| < 2 then MissingLayer
                                   else EmptyReduction)
    ensures r.Ok? ==> && CacheShaped(r.value.cache, nn.Sizes(), x.cols)
                      && r.value.cache.h0 == x
                      && r.value.prediction == r.value.cache.h3
                      && ColumnStochastic(r.value.prediction)
    ensures r.Ok? ==> var c := r.value.cache;
      && |nn.W| >= 3
      && c.a1 == MatMul(Transpose(nn.W[0]), c.h0) && c.h1 == SigmoidM(exp, c.a1)
      && c.a2 == MatMul(Transpose(nn.W[1]), c.h1) && c.h2 == SigmoidM(exp, c.a2)
      && c.a3 == MatMul(Transpose(nn.W[2]), c.h2) && c.h3 == Softmax(exp, c.a3)
  {
    assert nn.W[0].Shaped(nn.Sizes()[0], nn.Sizes()[1]);
    if x.rows != nn.W[0].rows then Err(ShapeMismatch)
    else
      var h0 := x;
      var a1 := MatMul(Transpose(nn.W[0]), h0);
      var h1 := SigmoidM(exp, a1);
      if |nn.W| < 2 then Err(MissingLayer)
      else
        assert nn.W[1].Shaped(nn.Sizes()[1], nn.Sizes()[2]);
        var a2 := MatMul(Transpose(nn.W[1]), h1);
        var h2 := SigmoidM(exp, a2);
        if |nn.W| < 3 then Err(MissingLayer)
        else
          assert nn.W[2].Shaped(nn.Sizes()[2], nn.Sizes()[3]);
          var a3 := MatMul(Transpose(nn.W[2]), h2);
          if a3.rows == 0 || a3.cols == 0 then Err(EmptyReduction)
          else
            var h3 := Softmax(exp, a3);
            Ok(ForwardOut(h3, Cache(h0, a1, h1, a2, h2, a3, h3)))
  }

  /** For the three-layer network `NN` builds by default (two hidden sizes),
      a batch of `B` inputs yields a `(output_size, B)` prediction whose
      columns are probability distributions, with every entry strictly
      positive. */
  lemma ForwardShapes(nn: NN, exp: real -> real, x: Matrix)
    requires Positive(exp)
    requires nn.Valid() && |nn.hidden| == 2 && nn.outputSize > 0
    requires x.Shaped(nn.inputSize, x.cols) && x.cols > 0
    ensures Forward(nn, exp, x).Ok?
    ensures var out := Forward(nn, exp, x).value;
      && out.prediction.Shaped(nn.outputSize, x.cols)
      && out.cache.h1.Shaped(nn.hidden[0], x.cols)
      && out.cache.h2.Shaped(nn.hidden[1], x.cols)
      && ColumnStochastic(out.prediction)
      && (forall i, j :: 0 <= i < nn.outputSize && 0 <= j < x.cols ==> 0.0 < out.prediction.e[i][j] <= 1.0)
  {
    assert nn.Sizes()[3] == nn.outputSize;
  }

  /** `(prediction * target).sum(axis=0)`, the per-example quantity whose
      negated logarithm `loss` averages: for each column, the inner product
      of the prediction column with the target column. */
  function Likelihoods(prediction: Matrix, target: Matrix): (l: seq<real>)
    requires prediction.SameShape(target)
    ensures |l| == prediction.cols
    ensures forall j :: 0 <= j < prediction.cols ==> l[j] == Dot(Col(prediction, j), Col(target, j))
  {
    seq(prediction.cols, j requires 0 <= j < prediction.cols => Likelihood(prediction, target, j))
  }

  /** Column `j` of `(prediction * target).sum(axis=0)`. */
  function Likelihood(prediction: Matrix, target: Matrix, j: nat): (x: real)
    requires prediction.SameShape(target) && j < prediction.cols
    ensures x == Dot(Col(prediction, j), Col(target, j))
  {
    var p := Hadamard(prediction, target);
    SumOfProducts(Col(prediction, j), Col(target, j), Col(p, j));
    ColSum(p, j)
  }

  /** The error signals of the backward pass, output layer first in the
      source and listed here by layer: `d3` at the output (`grad_f`), `d2`
      and `d1` at the hidden layers (`grad_a2`, `grad_a1`). */
  datatype Signals = Signals(d1: Matrix, d2: Matrix, d3: Matrix)

  /** What `backward` needs of its arguments: the three-layer weights, a
      cache of a batch of `B` examples, and prediction and target of the
      output shape. */
  predicate BackwardReady(nn: NN, target: Matrix, prediction: Matrix, cache: Cache) {
    && nn.Valid() && |nn.hidden| >= 2
    && prediction.Shaped(nn.Sizes()[3], prediction.cols)
    && target.SameShape(prediction)
    && CacheShaped(cache, nn.Sizes(), prediction.cols)
  }

  /** The error signal computation of `backward`: `grad_f = -(target -
      prediction)`, then back through `W[2]` and `W[1]`, each time multiplied
      entrywise by the sigmoid derivative at the cached pre-activation. */
  function ErrorSignals(nn: NN, exp: real -> real, target: Matrix, prediction: Matrix, cache: Cache): (d: Signals)
    requires Positive(exp)
    requires BackwardReady(nn, target, prediction, cache)
    ensures d.d3.SameShape(prediction)
    ensures d.d2.Shaped(nn.Sizes()[2], prediction.cols)
    ensures d.d1.Shaped(nn.Sizes()[1], prediction.cols)
    ensures forall i, j :: 0 <= i < prediction.rows && 0 <= j < prediction.cols ==>
      d.d3.e[i][j] == prediction.e[i][j] - target.e[i][j]
    ensures d.d2 == BackSignal(exp, nn.W[2], d.d3, cache.a2)
    ensures d.d1 == BackSignal(exp, nn.W[1], d.d2, cache.a1)
  {
    ThreeLayers(nn);
    var gradF := Neg(Sub(target, prediction));
    var gradA2 := BackSignal(exp, nn.W[2], gradF, cache.a2);
    var gradA1 := BackSignal(exp, nn.W[1], gradA2, cache.a1);
    Signals(gradA1, gradA2, gradF)
  }

  /** One step back through a layer: the signal `d` of the layer above,
      carried back through its weights `w` (`np.dot(W, d)`) and multiplied
      entrywise by the sigmoid derivative at the pre-activation `a`. */
  function BackSignal(exp: real -> real, w: Matrix, d: Matrix, a: Matrix): (r: Matrix)
    requires Positive(exp)
    requires w.WF() && d.WF() && w.cols == d.rows && a.Shaped(w.rows, d.cols)
    ensures r.SameShape(a)
    ensures forall i, j :: 0 <= i < a.rows && 0 <= j < a.cols ==>
      r.e[i][j] == Dot(w.e[i], Col(d, j)) * SigmoidDeriv(exp, a.e[i][j])
  {
    Hadamard(MatMul(w, d), SigmoidDerivM(exp, a))
  }

  /** `backward(target, prediction, cache)`: each `grad_W` is computed as
      `signal · hᵀ` and returned transposed. The result has one gradient per
      weight matrix, of that matrix's shape, and gradient `l` is `h_l · d_{l+1}ᵀ`:
      entry `(r, c)` sums, over the batch, input activation `r` times error
      signal `c`. */
  function Backward(nn: NN, exp: real -> real, target: Matrix, prediction: Matrix, cache: Cache): (grads: seq<Matrix>)
    requires Positive(exp)
    requires BackwardReady(nn, target, prediction, cache)
    ensures |grads| == 3
    ensures forall l :: 0 <= l < 3 ==> grads[l].SameShape(nn.W[l])
    ensures var d := ErrorSignals(nn, exp, target, prediction, cache);
      && grads[0] == MatMul(cache.h0, Transpose(d.d1))
      && grads[1] == MatMul(cache.h1, Transpose(d.d2))
      && grads[2] == MatMul(cache.h2, Transpose(d.d3))
  {
    var d := ErrorSignals(nn, exp, target, prediction, cache);
    var gradW3 := MatMul(d.d3, Transpose(cache.h2));
    var gradW2 := MatMul(d.d2, Transpose(cache.h1));
    var gradW1 := MatMul(d.d1, Transpose(cache.h0));
    TransposedOuter(d.d3, cache.h2);
    TransposedOuter(d.d2, cache.h1);
    TransposedOuter(d.d1, cache.h0);
    [Transpose(gradW1), Transpose(gradW2), Transpose(gradW3)]
  }

  /** Entry `(r, c)` of a weight gradient is the batch sum of input
      activation `r` times error signal `c`. */
  lemma GradientIsBatchSum(h: Matrix, d: Matrix, r: nat, c: nat)
    requires h.WF() && d.WF() && h.cols == d.cols
    requires r < h.rows && c < d.rows
    ensures MatMul(h, Transpose(d)).e[r][c] == Dot(h.e[r], d.e[c])
  {
    TransposeRowsAndCols(d);
  }

  /** When prediction and target are both probability distributions per
      column (a softmax output and a one-hot target), every column of the
      output error signal sums to zero. */
  lemma OutputSignalBalanced(nn: NN, exp: real -> real, target: Matrix, prediction: Matrix, cache: Cache)
    requires Positive(exp)
    requires BackwardReady(nn, target, prediction, cache)
    requires ColumnStochastic(prediction) && ColumnStochastic(target)
    ensures var d3 := ErrorSignals(nn, exp, target, prediction, cache).d3;
      forall j :: 0 <= j < prediction.cols ==> ColSum(d3, j) == 0.0
  {
    var d3 := ErrorSignals(nn, exp, target, prediction, cache).d3;
    forall j | 0 <= j < prediction.cols
      ensures ColSum(d3, j) == 0.0
    {
      SumDifference(Col(prediction, j), Col(target, j), Col(d3, j));
      assert ColSum(prediction, j) == 1.0 && ColSum(target, j) == 1.0;
    }
  }

  /** A zero signal stays zero when carried back through a layer. */
  lemma BackSignalOfZero(exp: real -> real, w: Matrix, d: Matrix, a: Matrix)
    requires Positive(exp)
    requires w.WF() && IsZero(d) && w.cols == d.rows && a.Shaped(w.rows, d.cols)
    ensures IsZero(BackSignal(exp, w, d, a))
  {
    forall i, j | 0 <= i < a.rows && 0 <= j < a.cols
      ensures BackSignal(exp, w, d, a).e[i][j] == 0.0
    {
      DotZero(w.e[i], Col(d, j));
    }
  }

  /** A weight gradient built from a zero error signal is zero. */
  lemma GradientOfZeroSignal(h: Matrix, d: Matrix)
    requires h.WF() && IsZero(d) && h.cols == d.cols
    ensures IsZero(MatMul(h, Transpose(d)))
  {
    MatMulZeroRight(h, Transpose(d));
  }

  /** A prediction that equals its target produces no gradient at all. */
  lemma PerfectPredictionNoGradient(nn: NN, exp: real -> real, prediction: Matrix, cache: Cache)
    requires Positive(exp)
    requires BackwardReady(nn, prediction, prediction, cache)
    ensures forall l :: 0 <= l < 3 ==> IsZero(Backward(nn, exp, prediction, prediction, cache)[l])
  {
    ThreeLayers(nn);
    var d := ErrorSignals(nn, exp, prediction, prediction, cache);
    assert IsZero(d.d3);
    BackSignalOfZero(exp, nn.W[2], d.d3, cache.a2);
    BackSignalOfZero(exp, nn.W[1], d.d2, cache.a1);
    GradientOfZeroSignal(cache.h0, d.d1);
    GradientOfZeroSignal(cache.h1, d.d2);
    GradientOfZeroSignal(cache.h2, d.d3);
  }

  /** Whether `update_weights` ran to completion or raised. */
  datatype Outcome = Done | Raised(error: Error)

  /** The model after a call, and how the call ended. */
  datatype Step = Step(net: NN, outcome: Outcome)

  /** `update_weights(grads)`: refuses in evaluation mode; otherwise replaces
      every `W[i]` by `W[i] - lr * grads[i]`, which raises before anything is
      assigned if there are fewer gradients than weights. */
  function UpdateWeights(nn: NN, grads: seq<Matrix>): (r: Step)
    requires nn.Valid()
    requires nn.train ==> forall l {:trigger grads[l]} :: 0 <= l < |nn.W| && l < |grads| ==> grads[l].SameShape(nn.W[l])
    ensures r.outcome == Raised(NotInTrainingMode) <==> !nn.train
    ensures r.outcome == Done <==> nn.train && |grads| >= |nn.W|
    ensures nn.train && |grads| < |nn.W| ==> r.outcome == Raised(MissingGradient)
    ensures r.outcome.Raised? ==> r.net == nn
    ensures r.outcome.Done? ==>
      && r.net.Valid()
      && r.net.inputSize == nn.inputSize && r.net.hidden == nn.hidden && r.net.outputSize == nn.outputSize
      && r.net.lr == nn.lr && r.net.train == nn.train
      && |r.net.W| == |nn.W|
      && forall l :: 0 <= l < |nn.W| ==> r.net.W[l].SameShape(nn.W[l])
  {
    if !nn.train then Step(nn, Raised(NotInTrainingMode))
    else if |grads| < |nn.W| then Step(nn, Raised(MissingGradient))
    else
      var w := seq(|nn.W|, l requires 0 <= l < |nn.W| && l < |grads| => assert grads[l].SameShape(nn.W[l]); Sub(nn.W[l], Scale(nn.lr, grads[l])));
      Step(nn.(W := w), Done)
  }

  /** A completed update moves every weight against its gradient, by the
      learning rate times the gradient entry. */
  lemma UpdateDescends(nn: NN, grads: seq<Matrix>, l: nat, i: nat, j: nat)
    requires nn.Valid()
    requires forall l {:trigger grads[l]} :: 0 <= l < |nn.W| && l < |grads| ==> grads[l].SameShape(nn.W[l])
    requires UpdateWeights(nn, grads).outcome == Done
    requires l < |nn.W| && i < nn.W[l].rows && j < nn.W[l].cols
    ensures l < |grads| && i < grads[l].rows && j < grads[l].cols
    ensures UpdateWeights(nn, grads).net.W[l].e[i][j] == nn.W[l].e[i][j] - nn.lr * grads[l].e[i][j]
  {
    assert grads[l].SameShape(nn.W[l]);
  }

  /** `training()`: sets the flag and nothing else. */
  function Training(nn: NN): (r: NN)
    ensures r.train
    ensures r.W == nn.W && r.lr == nn.lr && r.Sizes() == nn.Sizes()
    ensures r.Valid() <==> nn.Valid()
  {
    nn.(train := true)
  }

  /** `eval()`: clears the flag and nothing else. */
  function Eval(nn: NN): (r: NN)
    ensures !r.train
    ensures r.W == nn.W && r.lr == nn.lr && r.Sizes() == nn.Sizes()
    ensures r.Valid() <==> nn.Valid()
  {
    nn.(train := false)
  }

  /** The mode switches are idempotent, and of two switches in a row the
      later one decides the mode. */
  lemma ModeSwitches(nn: NN)
    ensures Training(Training(nn)) == Training(nn)
    ensures Eval(Eval(nn)) == Eval(nn)
    ensures Eval(Training(nn)) == Eval(nn) && Training(Eval(nn)) == Training(nn)
  {
  }

  /** After `eval()`, `update_weights` raises and leaves the model as it was,
      whatever the gradients. */
  lemma EvalBlocksUpdate(nn: NN, grads: seq<Matrix>)
    requires nn.Valid()
    ensures UpdateWeights(Eval(nn), grads) == Step(Eval(nn), Raised(NotInTrainingMode))
  {
  }

  /** A step with a zero learning rate, or with all-zero gradients, changes
      no weight. */
  lemma ZeroStepKeepsWeights(nn: NN, grads: seq<Matrix>)
    requires nn.Valid() && nn.train && |grads| >= |nn.W|
    requires forall l :: 0 <= l < |nn.W| ==> grads[l].SameShape(nn.W[l])
    requires nn.lr == 0.0 || forall l :: 0 <= l < |nn.W| ==> IsZero(grads[l])
    ensures UpdateWeights(nn, grads) == Step(nn, Done)
  {
    var r := UpdateWeights(nn, grads);
    forall l | 0 <= l < |nn.W|
      ensures r.net.W[l] == nn.W[l]
    {
      forall i | 0 <= i < nn.W[l].rows
        ensures r.net.W[l].e[i] == nn.W[l].e[i]
      {
      }
    }
  }
}

=== FILE: preprocess.dfy ===
/** The target half of `preprocess(batch, n_class)`: class labels become a
    one-hot matrix with one column per example. */
module Preprocess {
  import opened Matrices
  import opened Errors

  /** `preprocess`'s default `n_class`, the one the training and validation
      loops use. */
  const DefaultClasses: nat := 10

  /** The labels NumPy accepts as a row index into `n` rows: `-n <= label < n`. */
  predicate InRange(y: int, n: nat) {
    -(n as int) <= y < n
  }

  /** The row label `y` selects; a negative label counts from the end, as
      Python indexing does. */
  function RowIndex(y: int, n: nat): (k: nat)
    requires InRange(y, n)
    ensures k < n && k == y % n
  {
    if y < 0 then y + n else y
  }

  /** `np.zeros((n_class, B))` followed by `target_one_hot[target, np.arange(B)] = 1`:
      fails as a whole if any label is out of range, otherwise column `t`
      holds a single one, in the row label `t` selects. */
  function OneHot(labels: seq<int>, n: nat): (r: Result<Matrix>)
    ensures r.Ok? <==> forall t :: 0 <= t < |labels| ==> InRange(labels[t], n)
    ensures r.Err? ==> r.error == LabelOutOfRange
    ensures r.Ok? ==> r.value.Shaped(n, |labels|)
    ensures r.Ok? ==> forall k, t :: 0 <= k < n && 0 <= t < |labels| ==>
      r.value.e[k][t] == if k == labels[t] % n then 1.0 else 0.0
  {
    if exists t :: 0 <= t < |labels| && !InRange(labels[t], n) then Err(LabelOutOfRange)
    else
      Ok(Matrix(n, |labels|,
        seq(n, k requires 0 <= k < n =>
          seq(|labels|, t requires 0 <= t < |labels| => if k == RowIndex(labels[t], n) then 1.0 else 0.0))))
  }

  /** Every column of a one-hot target is a probability distribution: the
      targets are valid inputs for the cross-entropy loss and for `backward`. */
  lemma OneHotIsStochastic(labels: seq<int>, n: nat)
    requires OneHot(labels, n).Ok?
    ensures ColumnStochastic(OneHot(labels, n).value)
  {
    var m := OneHot(labels, n).value;
    forall t | 0 <= t < m.cols
      ensures ColSum(m, t) == 1.0
    {
      var k := RowIndex(labels[t], n);
      SumSingleNonZero(Col(m, t), k);
    }
  }

  /** Position of the first `1.0` in `s`, or `|s|` if there is none. */
  function FirstOne(s: seq<real>): (k: nat)
    ensures k <= |s|
    ensures k < |s| ==> s[k] == 1.0
    ensures forall i :: 0 <= i < k ==> s[i] != 1.0
  {
    if |s| == 0 then 0
    else if s[0] == 1.0 then 0
    else 1 + FirstOne(s[1..])
  }

  /** Reads the class of every column back from a one-hot matrix (the
      position of its one). */
  function Decode(m: Matrix): (labels: seq<nat>)
    requires m.WF()
    ensures |labels| == m.cols
    ensures forall t :: 0 <= t < m.cols ==> labels[t] == FirstOne(Col(m, t))
  {
    seq(m.cols, t requires 0 <= t < m.cols => FirstOne(Col(m, t)))
  }

  /** Decoding a one-hot target gives back the labels, reduced to the row
      each one selected. */
  lemma DecodeOneHot(labels: seq<int>, n: nat)
    requires OneHot(labels, n).Ok?
    ensures Decode(OneHot(labels, n).value) == seq(|labels|, t requires 0 <= t < |labels| => RowIndex(labels[t], n))
  {
    var m := OneHot(labels, n).value;
    forall t | 0 <= t < |labels|
      ensures FirstOne(Col(m, t)) == RowIndex(labels[t], n)
    {
      var c := Col(m, t);
      var k := RowIndex(labels[t], n);
      var f := FirstOne(c);
      assert c[k] == 1.0;
    }
  }

  /** For labels that are class numbers `0 <= label < n`, one-hot encoding
      is undone by decoding, so distinct label vectors give distinct targets. */
  lemma OneHotRoundTrip(labels: seq<nat>, n: nat)
    requires forall t :: 0 <= t < |labels| ==> labels[t] < n
    ensures OneHot(labels, n).Ok?
    ensures Decode(OneHot(labels, n).value) == labels
  {
    DecodeOneHot(labels, n);
  }
}
